=== FILE: README.md ===
# Recruiting bot: verified model of the application flow, menus and FAQ

The bot (`bot.py`) presents one job vacancy in Telegram. It answers five canned
FAQ questions. It also collects an application in three steps: full name, then
contact, then a resume file or text. The finished application goes to the
recruiter chat (`ADMIN_ID`). This project models the decision logic of the bot
as pure Dafny functions. Every Telegram call becomes an `Effect` value that a
handler returns instead of performing.

Modules, one per concern of the bot:

- `Wrappers`: `Option` and Python's `dict.get`.
- `Strings`: the Python string behaviour the bot relies on. This covers
  truthiness, f-string rendering of `None`, `startswith`, `str.replace`,
  `"\n".join` and `str(int)`. It also defines a line splitter and a decimal
  integer reader, which read the notice back.
- `Settings`: the startup configuration (`ADMIN_ID`, `MANAGER_CHAT_ID`).
- `Keyboards`: the inline keyboards. It also defines two readers, `Actions`
  and `Links`, which list the callback data and URLs a keyboard offers. The
  menu contracts are stated through these readers.
- `Effects`: the outbound calls (edit, reply, send_document, send_message).
- `Faq`: the FAQ table, the suffix extraction and lookup of `handle_faq`, and
  the two FAQ screens.
- `Notice`: the recruiter notice. It also has a reader (`ReadNotice`) that
  recovers every field from the notice text.
- `Intake`: the step handlers `start_apply`, `get_name`, `get_contact` and
  `get_resume`. This includes the three-way resume classification and the
  try/except delivery to the recruiter.
- `Conversation`: the ConversationHandler built in `main`. It has the entry
  point, the per-state filters and the state table. It also holds the
  invariant that `get_resume` relies on, and scenarios.
- `Routing`: which callback handler a button press reaches, under an explicit
  assumption. The assumption is that the first matching handler wins and a
  literal pattern matches data that starts with it, as `re.match` does.

The transport is a parameter. `Intake.Transport` says whether the first send
to the recruiter succeeds, and whether the fallback send succeeds. In a run
of several updates (`Conversation.Run`), each update has its own transport. In the
source a failed send raises. The effect list records every call a handler
makes, in order, whether or not it succeeded.

Behaviour of bot.py worth knowing:

- Nothing clears `user_data`. A new application starts with the previous
  name and contact still stored until they are typed again
  (`Conversation.ReapplyKeepsOldFields`).
- Pressing the apply button during an application does nothing. The
  conversation's entry point is consulted only when no conversation is in
  progress. The bot sends no re-prompt (`Conversation.Dispatch`).
- Name and contact are stored verbatim, with no format check. The only
  check is the message filter: `filters.TEXT` lets through only non-empty
  text, so a stored name or contact is never empty.
- If the send to the recruiter fails and the fallback send fails too, the
  fallback's exception escapes the handler. The candidate gets no
  confirmation and the state stays RESUME (`Conversation.BothSendsFail`).
- The conversation does not handle a message that the current state's filter
  rejects, and it sends no menu for it. The `/start` command is the one
  exception. Its command handler (bot.py:261) is registered ahead of the
  conversation, so it answers with the main menu (bot.py:82-87) in every
  state. That handler is left out of the model (see below).

## Model

| member | source | states |
|---|---|---|
| `Keyboards.ManagerRows` | bot.py:61-64 | The manager row holds exactly one link, to MANAGER_CHAT_ID, when that value is set and non-empty. Otherwise there is no row. The row has no callback buttons. |
| `Keyboards.MainMenu` | bot.py:66-74 | The main menu offers exactly the callbacks vacancy, faq and apply, in that order, one per row. The manager link follows them exactly when one is configured. |
| `Keyboards.BackToStart` | bot.py:76-79 | The back-to-start keyboard puts the "start" button first. The optional manager link comes next, and nothing else. |
| `Keyboards.FaqList` | bot.py:115-123 | The FAQ list is the five topic buttons in order, then the manager link iff configured, then back-to-menu as the last row. Its callbacks are the five topic codes followed by "start". |
| `Keyboards.FaqAnswerKeyboard` | bot.py:147-149 | Under an FAQ answer, the back-to-FAQ button comes first. The optional manager link comes next, and nothing else. |
| `Strings.ReplaceAll` | bot.py:135 | `str.replace` leaves a string without the pattern unchanged. With an empty replacement the result is never longer than the input, and strictly shorter when the pattern occurs. |
| `Strings.ReplaceAfterClearPrefix` | bot.py:135 | When no occurrence of the pattern starts before a given occurrence, the text before it is kept, that occurrence becomes the replacement, and replacing continues after it. |
| `Faq.Answer` | bot.py:135-145 | The answer is "Вопрос не найден." exactly when the callback data, with every "faq_" removed, is not one of the five topic codes. Otherwise it is the FAQ entry under that code's Russian key. |
| `Faq.TopicAnswers` | bot.py:137-145 | Each of salary, schedule, location, requirements and benefits, prefixed with "faq_", yields the FAQ entry for its Russian key, never the not-found text. |
| `Faq.RepeatedPrefix` | bot.py:135 | Because every "faq_" is removed, an extra leading "faq_" does not change the answer. |
| `Faq.FaqListButtonsAnswered` | bot.py:115-145 | Every topic button on the FAQ list is a callback whose data finds a real answer. |
| `Faq.ShowFaq` | bot.py:114-130 | `show_faq` shows the same title and FAQ-list keyboard either way, without Markdown. It edits the pressed message exactly when called from a button. |
| `Faq.HandleFaq` | bot.py:133-150 | `handle_faq` edits the message to the looked-up answer, without Markdown. The keyboard offers only back-to-FAQ plus the configured manager link. |
| `Notice.UsernameShown` | bot.py:204 | The username is shown when it is set and non-empty. Otherwise exactly "нет" is shown. The result is never empty. |
| `Strings.IntToString` | bot.py:203 | The decimal rendering of the user id is non-empty and has no line break. It starts with '-' exactly for negative ids. No leading zero is written. Reading it as a decimal integer gives the id back, so distinct ids render differently. |
| `Strings.DigitsRoundTrip` | bot.py:203 | Reading the decimal digits of a natural number gives the number back. |
| `Notice.ReadBack` | bot.py:198-205 | The recruiter notice carries the name, contact, file label, user id and username (or 'нет'). All five are read back exactly from the notice whenever they contain no line break. The id line parses back to the numeric id. |
| `Intake.StartApply` | bot.py:153-160 | The apply entry asks for the full name with the back-to-start keyboard and leads to NAME. It leaves the stored fields untouched. |
| `Intake.GetName` | bot.py:163-169 | The name step stores the text verbatim as the name, keeps the contact, prompts for a contact and leads to CONTACT. |
| `Intake.GetContact` | bot.py:172-178 | The contact step stores the text verbatim as the contact, keeps the name, prompts for the resume and leads to RESUME. |
| `Intake.Classify` | bot.py:186-195 | A file id is present exactly for a document, and then it is the document's id and name. Otherwise the label is "(текст вместо файла)" for non-empty text not starting with "/", and "(нет файла)" in every other case. |
| `Intake.Deliver` | bot.py:207-226 | Every send goes to ADMIN_ID. The first is send_document with the notice as caption iff the file id is truthy, else send_message with the notice. After a failure, exactly one plain error message follows and nothing is retried. An exception escapes iff both sends fail. |
| `Intake.GetResume` | bot.py:181-235 | A missing name or contact raises before anything is sent. A completed step always ends the conversation with the confirmation and main menu as the last call. It completes iff one of the two recruiter sends succeeds. When it raises, nothing is sent to the candidate. With both fields stored, the calls are exactly those of `Deliver` to ADMIN_ID, followed by the confirmation iff the step completes. So the notice, and after a failed send the single error message, go to the recruiter. |
| `Intake.DocumentPath` | bot.py:186-220 | With name and contact stored, the first call goes to the ADMIN_ID chat. It is send_document of the message's file with the notice as caption exactly when the message is a document with a non-empty file id. Otherwise it is send_message of the notice. The notice carries the stored name and contact either way. |
| `Intake.NoticeReadsBack` | bot.py:186-220 | The first call goes to the ADMIN_ID chat. From it, the name, contact, file label, user id and username can be read back, and the id parses to the sender's numeric id. |
| `Conversation.Dispatch` | bot.py:246-257 | States move only forward, END to NAME to CONTACT to RESUME to END, or stay. The apply button starts the flow only from END. Pressing it in any other state makes no call and changes nothing. A message the state's filter rejects changes nothing. An accepted message in NAME or CONTACT always advances, with no error, storing the message text as the name or contact. Only these two steps change the name and contact. The invariant get_resume relies on (non-empty name in CONTACT, non-empty name and contact in RESUME) is preserved, so a valid conversation never raises a missing-key error. |
| `Conversation.Run` | bot.py:246-257 | Any sequence of updates from a valid conversation ends in a valid conversation. Each update carries its own transport, so the sends to the recruiter may succeed or fail independently. |
| `Conversation.ReachableValid` | bot.py:181-184 | In every conversation reachable from scratch, whichever recruiter sends failed on the way, CONTACT has a stored non-empty name, and RESUME has both a stored non-empty name and a stored non-empty contact. |
| `Conversation.Completion` | bot.py:207-235 | In RESUME with an accepted message, the conversation ends iff a recruiter send succeeds. It then ends with the confirmation and no error. Otherwise it stays unchanged with a delivery error. The first call goes to the ADMIN_ID chat and carries the notice with the stored name and contact. |
| `Conversation.AnnaApplies` | bot.py:153-235 | When the first send to the recruiter succeeds, the full flow (apply, "Anna K.", "@annak_tg", document doc123 "cv.pdf") makes exactly five calls: three prompts, the document with the notice to the recruiter, and the confirmation. It ends in END. This holds whatever the transport does during the three prompts and whether or not the fallback would have worked. |
| `Conversation.BothSendsFail` | bot.py:207-235 | When both recruiter sends fail, the calls are the notice and one error message. The error escapes, there is no confirmation, and the conversation stays in RESUME. |
| `Conversation.ReapplyKeepsOldFields` | bot.py:153-160 | Applying again after an application ends leads to NAME with the previous name and contact still stored. |
| `Routing.FirstMatch` | bot.py:261-266 | The routed handler is that of the first registered pattern matching the data. None is returned exactly when no pattern matches. |
| `Routing.HandleFaqUnreachable` | bot.py:263-264 | With the handlers in registration order, no callback data ever reaches handle_faq. |
| `Routing.TopicButtonShowsList` | bot.py:116-120 | In registration order, every topic button reaches show_faq. |
| `Routing.CorrectedReachesTopics` | bot.py:263-264 | With the topic handler registered before the FAQ-list handler, handle_faq receives exactly the data that starts with "faq_". |
| `Routing.CorrectedAgreesElsewhere` | bot.py:261-266 | The reordering changes the route of no other callback data. |
| `Routing.CorrectedRoutesMenuButtons` | bot.py:261-266 | In the corrected order, the vacancy, FAQ, back-to-FAQ, back-to-menu and apply buttons reach show_vacancy, show_faq, show_faq, back_to_start and the conversation's entry point. The entry point starts an application only at END (`Conversation.Dispatch`). |
| `Routing.CorrectedRoutesTopicButtons` | bot.py:263-264 | In the corrected order, all five topic buttons reach handle_faq. |

## Findings

| source | as written | input that shows it | evidently intended | confidence | as-written member | corrected member |
|---|---|---|---|---|---|---|
| bot.py:263-264 | The FAQ-list handler with pattern "faq" is registered before the topic handler with pattern "^faq_". `re.match` makes "faq" match any data that starts with "faq", and the first matching handler takes the update. | Pressing "💰 Зарплата" (data "faq_salary") shows the FAQ list again, never the salary answer. | Topic buttons reach handle_faq and show their answer. | medium: not executed. It rests on python-telegram-bot applying string patterns with `re.match` and stopping at the first matching handler in a group. | `Routing.HandleFaqUnreachable` | `Routing.CorrectedReachesTopics` |

## Left out

- Telegram I/O: editing, replying, send_document, send_message and polling. These are modelled as returned `Effect` values. Markdown rendering and Telegram's limits on text and caption length are not modelled. A send the recruiter chat rejects is covered only through the `Transport` parameter.
- Intake.Transport: whether a Markdown send succeeds depends on its content. An unpaired `_`, `*`, `` ` `` or `[` in the name, contact, username or file name makes Telegram's legacy Markdown reject the notice, and a contact such as "@annak_tg" has one. `Transport` is independent of the notice, so the model does not say which notices Telegram rejects. It covers both outcomes of each send instead.
- Failures of the sends to the candidate (reply_text, edit_message_text): the model assumes they succeed. Only the two sends to the recruiter chat can fail.
- `start` and `show_vacancy` (bot.py:82-111): they render the static vacancy text. Only their buttons appear, in `Keyboards` and `Routing`. The `/start` command handler answers in every conversation state, and the model of the conversation does not include it.
- The abort path `back_to_start` and the conversation fallback (bot.py:238-239, bot.py:258): they are not modelled. The handler returns None rather than END, and the top-level "start" handler is registered ahead of the conversation, so the code shows no state reset. The model makes no "return to menu clears the application" claim.
- Routing.FirstMatch: pattern semantics and handler precedence belong to python-telegram-bot. They enter only as the stated assumption: first match in registration order, with a literal pattern matching its prefix. Message updates reach the conversation directly.
- Loading and validating the configuration from `.env` (bot.py:14-25) and logging (bot.py:57-58, bot.py:222): not modelled. `Settings.Config` takes the loaded values as given.
- Concurrency: each async handler is one sequential step over one user's conversation. Several users are not modelled together.

=== FILE: conversation.dfy ===
/**
 The ConversationHandler wired in `main`: the entry point (the apply button),
 the per-state message filters, and the step handlers, over one user's
 conversation state and user data.
 */
module Conversation {
  import opened Wrappers
  import opened Strings
  import opened Settings
  import opened Keyboards
  import opened Effects
  import opened Notice
  import opened Intake

  /** One user's conversation: the state and the user_data dictionary. */
  datatype Conv = Conv(state: State, data: UserData)

  /** What reaches the conversation: the apply button being pressed, or a message. */
  datatype Update = ApplyPressed | Message(input: Input)

  /** The conversation after an update, the calls made, and the exception if one escaped. */
  datatype Step = Step(conv: Conv, effects: seq<Effect>, error: Option<Error>)

  /** A user who has never applied. */
  const Initial := Conv(End, UserData(None, None))

  /** The only forward move out of each state. */
  function Succ(s: State): State {
    match s
    case End => Name
    case Name => Contact
    case Contact => Resume
    case Resume => End
  }

  /**
   What get_resume relies on: in CONTACT a non-empty name is stored, in RESUME
   a non-empty name and a non-empty contact are.
   */
  predicate Valid(c: Conv) {
    && (c.state == Contact ==> Truthy(c.data.name))
    && (c.state == Resume ==> Truthy(c.data.name) && Truthy(c.data.contact))
  }

  /** The handler registered for a state, run on a message its filter accepted. */
  function Handle(s: State, data: UserData, m: Input, user: User, cfg: Config, t: Transport): Outcome
    requires Accepts(s, m)
  {
    match s
    case Name => GetName(data, m.text, cfg)
    case Contact => GetContact(data, m.text, cfg)
    case Resume => GetResume(data, m, user, cfg, t)
  }

  /**
   The conversation after a handler: a returned state is taken; when the
   handler raises, the state stays where it was.
   */
  function Settle(c: Conv, o: Outcome): Step {
    match o.result
    case Next(s) => Step(Conv(s, o.data), o.effects, None)
    case Raised(e) => Step(Conv(c.state, o.data), o.effects, Some(e))
  }

  /**
   One update. The apply button starts the flow only when none is in progress
   (re-entry is not allowed); a message is handled only when the current
   state's filter accepts it; anything else leaves the conversation untouched.
   */
  function Dispatch(c: Conv, u: Update, user: User, cfg: Config, t: Transport): (r: Step)
    ensures r.conv.state == c.state || r.conv.state == Succ(c.state)
    ensures Valid(c) ==> Valid(r.conv)
    ensures Valid(c) && r.error.Some? ==> r.error.value == DeliveryFailed
    ensures u.ApplyPressed? ==> r.conv == Conv(if c.state == End then Name else c.state, c.data)
    ensures u.ApplyPressed? && c.state != End ==> r == Step(c, [], None)
    ensures u.Message? && !Accepts(c.state, u.input) ==> r == Step(c, [], None)
    ensures u.Message? && Accepts(c.state, u.input) && (c.state == Name || c.state == Contact) ==>
      && r.error.None?
      && r.conv.state == Succ(c.state)
      && (c.state == Name ==> r.conv.data.name == Some(u.input.text))
      && (c.state == Contact ==> r.conv.data.contact == Some(u.input.text))
    ensures Valid(c) && u.Message? ==> (|r.effects| > 0 <==> Accepts(c.state, u.input))
    ensures r.conv.data.name != c.data.name ==>
      c.state == Name && u.Message? && PlainText(u.input) && r.conv.data.name == Some(u.input.text)
    ensures r.conv.data.contact != c.data.contact ==>
      c.state == Contact && u.Message? && PlainText(u.input) && r.conv.data.contact == Some(u.input.text)
  {
    match u
    case ApplyPressed =>
      if c.state == End then Settle(c, StartApply(c.data, cfg)) else Step(c, [], None)
    case Message(m) =>
      if Accepts(c.state, m) then Settle(c, Handle(c.state, c.data, m, user, cfg, t)) else Step(c, [], None)
  }

  /** A conversation after a sequence of updates, with every call made along the way. */
  datatype Trace = Trace(conv: Conv, effects: seq<Effect>)

  /**
   An update together with how the sends to the recruiter fare while it is
   handled; each update meets the transport afresh.
   */
  datatype Event = Event(update: Update, transport: Transport)

  function Run(c: Conv, es: seq<Event>, user: User, cfg: Config): (r: Trace)
    ensures Valid(c) ==> Valid(r.conv)
    decreases |es|
  {
    if |es| == 0 then Trace(c, [])
    else
      var s := Dispatch(c, es[0].update, user, cfg, es[0].transport);
      var rest := Run(s.conv, es[1..], user, cfg);
      Trace(rest.conv, s.effects + rest.effects)
  }

  /**
   Every conversation a user can reach from scratch satisfies the invariant
   get_resume relies on, whichever sends to the recruiter failed on the way.
   */
  lemma ReachableValid(es: seq<Event>, user: User, cfg: Config)
    ensures Valid(Run(Initial, es, user, cfg).conv)
  {
  }

  /**
   Completing the flow: in RESUME with an accepted message, the conversation
   ends exactly when one of the two sends to the recruiter succeeds, and then
   the candidate's last message is the confirmation with the main menu; the
   first call goes to the recruiter chat and carries the notice with the
   stored name and contact.
   */
  lemma Completion(c: Conv, m: Input, user: User, cfg: Config, t: Transport)
    requires Valid(c) && c.state == Resume && Accepts(Resume, m)
    ensures var r := Dispatch(c, Message(m), user, cfg, t);
      && (r.conv.state == End <==> t.primaryOk || t.fallbackOk)
      && (r.conv.state == End ==> r.error.None? && r.effects[|r.effects| - 1] == Confirmation(cfg))
      && (r.conv.state != End ==> r.error == Some(DeliveryFailed) && r.conv == c)
      && !r.effects[0].ToUser() && r.effects[0].chatId == cfg.adminId
      && var notice := AdminNotice(ApplicationOf(c.data.name.value, c.data.contact.value, m, user));
         (r.effects[0].SendDocument? ==> r.effects[0].caption == notice)
         && (r.effects[0].SendMessage? ==> r.effects[0].text == notice)
  {
    CompletionOutcome(c, m, user, cfg, t);
    CompletionNotice(c, m, user, cfg, t);
  }

  /** How the RESUME step ends, and with which error if it does not. */
  lemma CompletionOutcome(c: Conv, m: Input, user: User, cfg: Config, t: Transport)
    requires Valid(c) && c.state == Resume && Accepts(Resume, m)
    ensures var r := Dispatch(c, Message(m), user, cfg, t);
      && (r.conv.state == End <==> t.primaryOk || t.fallbackOk)
      && (r.conv.state == End ==> r.error.None? && r.effects[|r.effects| - 1] == Confirmation(cfg))
      && (r.conv.state != End ==> r.error == Some(DeliveryFailed) && r.conv == c)
  {
  }

  /** What the RESUME step sends first, and to whom. */
  lemma CompletionNotice(c: Conv, m: Input, user: User, cfg: Config, t: Transport)
    requires Valid(c) && c.state == Resume && Accepts(Resume, m)
    ensures var r := Dispatch(c, Message(m), user, cfg, t);
      && |r.effects| > 0
      && !r.effects[0].ToUser() && r.effects[0].chatId == cfg.adminId
      && var notice := AdminNotice(ApplicationOf(c.data.name.value, c.data.contact.value, m, user));
         (r.effects[0].SendDocument? ==> r.effects[0].caption == notice)
         && (r.effects[0].SendMessage? ==> r.effects[0].text == notice)
  {
  }

  const AdminChat := 1000
  const Candidate := User(42, Some("annak"))
  const Cfg := Config(AdminChat, None)

  /** The updates of the scenario below. */
  const AnnaUpdates: seq<Update> := [ApplyPressed, Message(Text("Anna K.", false)),
    Message(Text("@annak_tg", false)), Message(Document("doc123", Some("cv.pdf")))]

  /** The three prompts of the scenario; none of them sends to the recruiter. */
  lemma AnnaSteps(t0: Transport, t1: Transport, t2: Transport)
    ensures var s1 := Dispatch(Initial, AnnaUpdates[0], Candidate, Cfg, t0);
      var s2 := Dispatch(s1.conv, AnnaUpdates[1], Candidate, Cfg, t1);
      var s3 := Dispatch(s2.conv, AnnaUpdates[2], Candidate, Cfg, t2);
      && s1 == Step(Conv(Name, UserData(None, None)), [EditText(NamePrompt, BackToStart(Cfg), true)], None)
      && s2 == Step(Conv(Contact, UserData(Some("Anna K."), None)), [ReplyText(ContactPrompt, BackToStart(Cfg), false)], None)
      && s3 == Step(Conv(Resume, UserData(Some("Anna K."), Some("@annak_tg"))), [ReplyText(ResumePrompt, BackToStart(Cfg), false)], None)
  {
  }

  /** The scenario's resume, when the first send to the recruiter succeeds. */
  lemma AnnaSendsResume(fallbackOk: bool)
    ensures Dispatch(Conv(Resume, UserData(Some("Anna K."), Some("@annak_tg"))), AnnaUpdates[3], Candidate, Cfg, Transport(true, fallbackOk))
      == Step(Conv(End, UserData(Some("Anna K."), Some("@annak_tg"))),
          [SendDocument(AdminChat, "doc123", AdminNotice(Application("Anna K.", "@annak_tg", "cv.pdf", 42, Some("annak"))), true),
           Confirmation(Cfg)], None)
  {
    var data := UserData(Some("Anna K."), Some("@annak_tg"));
    var o := GetResume(data, Document("doc123", Some("cv.pdf")), Candidate, Cfg, Transport(true, fallbackOk));
    DocumentDelivered("Anna K.", "@annak_tg", "doc123", Some("cv.pdf"), Candidate, Cfg, fallbackOk);
    assert o.result == Next(End);
    ResumeStep(Conv(Resume, data), Document("doc123", Some("cv.pdf")), Candidate, Cfg, Transport(true, fallbackOk));
  }

  /** At END the apply button runs start_apply. */
  lemma ApplyStep(c: Conv, user: User, cfg: Config, t: Transport)
    requires c.state == End
    ensures Dispatch(c, ApplyPressed, user, cfg, t) == Settle(c, StartApply(c.data, cfg))
  {
  }

  /** In RESUME an accepted message goes to get_resume. */
  lemma ResumeStep(c: Conv, m: Input, user: User, cfg: Config, t: Transport)
    requires c.state == Resume && Accepts(Resume, m)
    ensures Dispatch(c, Message(m), user, cfg, t) == Settle(c, GetResume(c.data, m, user, cfg, t))
  {
  }

  /** The scenario's updates, each with its own transport. */
  function AnnaEvents(t0: Transport, t1: Transport, t2: Transport, t3: Transport): seq<Event> {
    [Event(AnnaUpdates[0], t0), Event(AnnaUpdates[1], t1), Event(AnnaUpdates[2], t2), Event(AnnaUpdates[3], t3)]
  }

  /**
   The full flow: apply, "Anna K.", "@annak_tg", then the document doc123
   named cv.pdf. When the first send to the recruiter succeeds, the recruiter
   gets the file with the notice, the candidate gets the confirmation, and
   the conversation ends.
   */
  lemma AnnaApplies(t0: Transport, t1: Transport, t2: Transport, fallbackOk: bool)
    ensures var r := Run(Initial, AnnaEvents(t0, t1, t2, Transport(true, fallbackOk)), Candidate, Cfg);
      && r.conv == Conv(End, UserData(Some("Anna K."), Some("@annak_tg")))
      && r.effects == [
        EditText(NamePrompt, BackToStart(Cfg), true),
        ReplyText(ContactPrompt, BackToStart(Cfg), false),
        ReplyText(ResumePrompt, BackToStart(Cfg), false),
        SendDocument(AdminChat, "doc123", AdminNotice(Application("Anna K.", "@annak_tg", "cv.pdf", 42, Some("annak"))), true),
        Confirmation(Cfg)]
  {
    AnnaSteps(t0, t1, t2);
    AnnaSendsResume(fallbackOk);
    var es := AnnaEvents(t0, t1, t2, Transport(true, fallbackOk));
    var s1 := Dispatch(Initial, es[0].update, Candidate, Cfg, es[0].transport);
    var s2 := Dispatch(s1.conv, es[1].update, Candidate, Cfg, es[1].transport);
    var s3 := Dispatch(s2.conv, es[2].update, Candidate, Cfg, es[2].transport);
    var s4 := Dispatch(s3.conv, es[3].update, Candidate, Cfg, es[3].transport);
    RunFirst(Initial, es, Candidate, Cfg);
    RunFirst(s1.conv, es[1..], Candidate, Cfg);
    RunFirst(s2.conv, es[2..], Candidate, Cfg);
    RunFirst(s3.conv, es[3..], Candidate, Cfg);
    assert es[1..][1..] == es[2..];
    assert es[2..][1..] == es[3..];
    assert es[3..][1..] == [];
    FiveCalls(s1.effects, s2.effects, s3.effects, s4.effects);
  }

  /** The scenario's calls, one per prompt and two for the resume, joined as the run joins them. */
  lemma FiveCalls(a: seq<Effect>, b: seq<Effect>, c: seq<Effect>, d: seq<Effect>)
    requires |a| == 1 && |b| == 1 && |c| == 1 && |d| == 2
    ensures a + (b + (c + (d + []))) == [a[0], b[0], c[0], d[0], d[1]]
  {
  }

  /** A run is its first step followed by the run of the rest. */
  lemma RunFirst(c: Conv, es: seq<Event>, user: User, cfg: Config)
    requires |es| > 0
    ensures var s := Dispatch(c, es[0].update, user, cfg, es[0].transport);
      var rest := Run(s.conv, es[1..], user, cfg);
      Run(c, es, user, cfg) == Trace(rest.conv, s.effects + rest.effects)
  {
  }

  /**
   Both sends to the recruiter fail: one fallback message is attempted, the
   exception escapes, the candidate gets no confirmation and the state stays RESUME.
   */
  lemma BothSendsFail()
    ensures var c := Conv(Resume, UserData(Some("Ben"), Some("+7 900")));
      var r := Dispatch(c, Message(Text("no file, sorry", false)), Candidate, Cfg, Transport(false, false));
      && r.conv == c
      && r.error == Some(DeliveryFailed)
      && r.effects == [
        SendMessage(AdminChat, AdminNotice(Application("Ben", "+7 900", TextInsteadLabel, 42, Some("annak"))), true),
        SendMessage(AdminChat, FailureNotice, false)]
  {
    var m := Text("no file, sorry", false);
    assert FreeText(m) by {
      assert m.text[0] == 'n';
      assert !StartsWith(m.text, "/");
    }
    assert Classify(m).fileName == Some(TextInsteadLabel);
  }

  /**
   Applying again after a completed application keeps the old name and
   contact in user_data until they are typed again: nothing clears them.
   */
  lemma ReapplyKeepsOldFields(c: Conv, user: User, cfg: Config, t: Transport)
    requires c.state == End
    ensures Dispatch(c, ApplyPressed, user, cfg, t).conv == Conv(Name, c.data)
  {
  }
}

=== FILE: effects.dfy ===
/**
 Outbound Telegram calls, as values. A handler returns the calls it makes, in
 order; whether a call to the recruiter chat succeeds is decided by the
 transport (see Intake.Transport), not here.
 */
module Effects {
  import opened Keyboards

  datatype Effect =
    /** `query.edit_message_text`: replaces the message the pressed button belongs to. */
    | EditText(text: string, markup: Keyboard, markdown: bool)
    /** `update.message.reply_text`: answers the user's message. */
    | ReplyText(text: string, markup: Keyboard, markdown: bool)
    /** `bot.send_document` to a chat, forwarding a file by its Telegram file id. */
    | SendDocument(chatId: int, document: string, caption: string, markdown: bool)
    /** `bot.send_message` to a chat. */
    | SendMessage(chatId: int, text: string, markdown: bool)
  {
    /** True for the calls that go to the user rather than to another chat. */
    predicate ToUser() {
      EditText? || ReplyText?
    }
  }
}

=== FILE: faq.dfy ===
/** The vacancy facts, the FAQ table and the FAQ screens (show_faq, handle_faq). */
module Faq {
  import opened Wrappers
  import opened Strings
  import opened Settings
  import opened Keyboards
  import opened Effects

  const Salary := "от 80 000 до 150 000 ₽"
  const Schedule := "Полный день, с 9:00 до 18:00"
  const Location := "Москва, м. Курская (гибрид)"
  const Requirements := "• Опыт в продажах от 1 года\n• Коммуникабельность\n• Готовность к активным продажам"
  const Benefits := "• Белая зарплата + бонусы\n• Обучение за счёт компании\n• Корпоративные мероприятия"

  /** FAQ: answer text under each Russian topic key. */
  const Answers: map<string, string> := map[
    "зарплата" := "Зарплата: " + Salary + ". Выплачивается 2 раза в месяц.",
    "график" := "График работы: " + Schedule + ".",
    "место" := "Место: " + Location + ".",
    "требования" := "Требования:\n" + Requirements,
    "льготы" := "Мы предлагаем:\n" + Benefits
  ]

  /** The callback suffix of each topic button, mapped to its Russian key. */
  const Topics: map<string, string> := map[
    "salary" := "зарплата",
    "schedule" := "график",
    "location" := "место",
    "requirements" := "требования",
    "benefits" := "льготы"
  ]

  const NotFound := "Вопрос не найден."
  const FaqTitle := "Выберите интересующий вопрос:"
  const CallbackPrefix := "faq_"

  /** The callback data with every "faq_" removed, as `data.replace("faq_", "")`. */
  function Suffix(data: string): (r: string)
    ensures |r| <= |data|
  {
    ReplaceAll(data, CallbackPrefix, "")
  }

  /** The answer handle_faq shows for a callback: two dictionary lookups with a fixed default. */
  function Answer(data: string): (r: string)
    ensures r == NotFound <==> Suffix(data) !in Topics
    ensures Suffix(data) in Topics ==> r == Answers[Topics[Suffix(data)]]
  {
    match Get(Topics, Suffix(data))
    case None => NotFound
    case Some(key) =>
      match Get(Answers, key)
      case Some(answer) => answer
      case None => NotFound
  }

  /** A topic key is left alone by the suffix extraction: none of them contains '_'. */
  lemma TopicKeyIsOwnSuffix(k: string)
    requires k in Topics
    ensures Suffix(k) == k
  {
    assert '_' in CallbackPrefix;
    assert '_' !in k;
    if Occurs(CallbackPrefix, k) {
      OccursChars(CallbackPrefix, k);
    }
  }

  /** A leading "faq_" is dropped from the suffix. */
  lemma SuffixDropsPrefix(data: string)
    ensures Suffix(CallbackPrefix + data) == Suffix(data)
  {
    ReplaceLeading(CallbackPrefix, data, "");
    assert "" + ReplaceAll(data, CallbackPrefix, "") == ReplaceAll(data, CallbackPrefix, "");
  }

  /** Each topic button's data "faq_<key>" reaches the FAQ entry for that key's Russian name. */
  lemma TopicAnswers(k: string)
    requires k in Topics
    ensures Answer(CallbackPrefix + k) == Answers[Topics[k]]
    ensures Answer(CallbackPrefix + k) != NotFound
  {
    SuffixDropsPrefix(k);
    TopicKeyIsOwnSuffix(k);
  }

  /** Every "faq_" is removed, so a repeated prefix changes nothing. */
  lemma RepeatedPrefix(data: string)
    ensures Answer(CallbackPrefix + data) == Answer(data)
  {
    SuffixDropsPrefix(data);
  }

  /** Each topic button carries "faq_" followed by one of the topic codes. */
  lemma TopicButtonData(i: nat)
    requires i < |TopicButtons|
    ensures StartsWith(TopicButtons[i].data, CallbackPrefix)
    ensures TopicButtons[i].data[|CallbackPrefix|..] in Topics
  {
  }

  /** Every topic button on the FAQ list leads to a real answer. */
  lemma FaqListButtonsAnswered(cfg: Config)
    ensures forall i :: 0 <= i < |TopicButtons| ==> FaqList(cfg)[i][0].Callback? && Answer(FaqList(cfg)[i][0].data) != NotFound
  {
    var kb: Keyboard := FaqList(cfg);
    forall i | 0 <= i < |TopicButtons|
      ensures kb[i][0].Callback? && Answer(kb[i][0].data) != NotFound
    {
      assert kb[i] == kb[..5][i] == [TopicButtons[i]];
      var data := TopicButtons[i].data;
      TopicButtonData(i);
      var k := data[|CallbackPrefix|..];
      assert data == CallbackPrefix + k;
      TopicAnswers(k);
    }
  }

  /** `show_faq`: the topic list, edited into the pressed message or sent as a reply. */
  function ShowFaq(cfg: Config, viaCallback: bool): (e: Effect)
    ensures e.ToUser() && e.text == FaqTitle && e.markup == FaqList(cfg) && !e.markdown
    ensures e.EditText? <==> viaCallback
  {
    if viaCallback then EditText(FaqTitle, FaqList(cfg), false)
    else ReplyText(FaqTitle, FaqList(cfg), false)
  }

  /** `handle_faq`: the answer, with back-to-FAQ and the optional manager row. */
  function HandleFaq(data: string, cfg: Config): (e: Effect)
    ensures e.EditText? && e.text == Answer(data) && !e.markdown
    ensures Actions(e.markup) == ["faq"] && Links(e.markup) == ManagerLinks(cfg)
  {
    EditText(Answer(data), FaqAnswerKeyboard(cfg), false)
  }
}

=== FILE: intake.dfy ===
/**
 The application flow's step handlers: start_apply, get_name, get_contact and
 get_resume, with the resume classification and the delivery to the recruiter.
 */
module Intake {
  import opened Wrappers
  import opened Strings
  import opened Settings
  import opened Keyboards
  import opened Effects
  import opened Notice

  /**
   The conversation states. `End` is ConversationHandler.END: no application
   in progress, which is also where a user starts.
   */
  datatype State = End | Name | Contact | Resume

  /** The keys the flow keeps in the user's user_data; an absent key is None. */
  datatype UserData = UserData(name: Option<string>, contact: Option<string>)

  /**
   An incoming message: text (with whether Telegram marks it as a bot
   command), a document, or anything else (a photo, a sticker, ...).
   */
  datatype Input =
    | Text(text: string, isCommand: bool)
    | Document(fileId: string, fileName: Option<string>)
    | Other

  /** `filters.TEXT & ~filters.COMMAND`: a non-empty text that is not a bot command. */
  predicate PlainText(m: Input) {
    m.Text? && |m.text| > 0 && !m.isCommand
  }

  /** The message filter registered for each state; nothing is accepted outside the flow. */
  predicate Accepts(s: State, m: Input) {
    match s
    case End => false
    case Name => PlainText(m)
    case Contact => PlainText(m)
    case Resume => m.Document? || PlainText(m)
  }

  const NamePrompt := "Пожалуйста, введите ваше *полное имя*:"
  const ContactPrompt := "Отлично! Теперь введите контакт (Telegram, WhatsApp или телефон):"
  const ResumePrompt := "Прикрепите ваше резюме (файл PDF или DOC):"
  const Thanks := "✅ *Спасибо за отклик!* Мы свяжемся с вами в ближайшее время.\n\nЕсли у вас остались вопросы — задавайте!"
  const FailureNotice := "❌ Ошибка: не удалось отправить отклик."
  const TextInsteadLabel := "(текст вместо файла)"
  const NoFileLabel := "(нет файла)"

  /** Why a handler raised: a missing user_data key, or both sends to the recruiter failing. */
  datatype Error = MissingKey(key: string) | DeliveryFailed

  /** A handler either returns the next state or raises. */
  datatype Result = Next(state: State) | Raised(error: Error)

  /** What a handler leaves behind: the user data, the calls it made, and how it ended. */
  datatype Outcome = Outcome(data: UserData, effects: seq<Effect>, result: Result)

  /** `start_apply`: ask for the full name and enter NAME. The user data is not cleared. */
  function StartApply(data: UserData, cfg: Config): (o: Outcome)
    ensures o.result == Next(Name)
    ensures o.data == data
    ensures o.effects == [EditText(NamePrompt, BackToStart(cfg), true)]
  {
    Outcome(data, [EditText(NamePrompt, BackToStart(cfg), true)], Next(Name))
  }

  /** `get_name`: store the text as the name, without any check, and move to CONTACT. */
  function GetName(data: UserData, text: string, cfg: Config): (o: Outcome)
    ensures o.result == Next(Contact)
    ensures o.data.name == Some(text) && o.data.contact == data.contact
    ensures o.effects == [ReplyText(ContactPrompt, BackToStart(cfg), false)]
  {
    Outcome(data.(name := Some(text)), [ReplyText(ContactPrompt, BackToStart(cfg), false)], Next(Contact))
  }

  /** `get_contact`: store the text as the contact, without any check, and move to RESUME. */
  function GetContact(data: UserData, text: string, cfg: Config): (o: Outcome)
    ensures o.result == Next(Resume)
    ensures o.data.contact == Some(text) && o.data.name == data.name
    ensures o.effects == [ReplyText(ResumePrompt, BackToStart(cfg), false)]
  {
    Outcome(data.(contact := Some(text)), [ReplyText(ResumePrompt, BackToStart(cfg), false)], Next(Resume))
  }

  /** The file id and the file name (or fallback label) get_resume picks from a message. */
  datatype ResumeRef = ResumeRef(fileId: Option<string>, fileName: Option<string>)

  /** Non-empty text that does not start with "/". */
  predicate FreeText(m: Input) {
    m.Text? && |m.text| > 0 && !StartsWith(m.text, "/")
  }

  /**
   The three-way choice: a document gives its id and name; otherwise free text
   gives no id and the "text instead of a file" label; otherwise no id and the
   "no file" label.
   */
  function Classify(m: Input): (r: ResumeRef)
    ensures r.fileId.Some? <==> m.Document?
    ensures m.Document? ==> r.fileId == Some(m.fileId) && r.fileName == m.fileName
    ensures !m.Document? ==> r.fileName == Some(if FreeText(m) then TextInsteadLabel else NoFileLabel)
  {
    match m
    case Document(id, name) => ResumeRef(Some(id), name)
    case Text(s, _) =>
      if |s| > 0 && !StartsWith(s, "/") then ResumeRef(None, Some(TextInsteadLabel))
      else ResumeRef(None, Some(NoFileLabel))
    case Other => ResumeRef(None, Some(NoFileLabel))
  }

  /**
   Which sends to the recruiter chat succeed: the first (document or message)
   and the fallback error message. A failed send raises in bot.py.
   */
  datatype Transport = Transport(primaryOk: bool, fallbackOk: bool)

  /** The sends that were attempted, and whether an exception escaped. */
  datatype Delivery = Delivery(sent: seq<Effect>, escaped: bool)

  /** Every call in a list goes to the given chat. */
  predicate AllTo(effects: seq<Effect>, chat: int) {
    forall i :: 0 <= i < |effects| ==> !effects[i].ToUser() && effects[i].chatId == chat
  }

  /**
   The try/except around the send to the recruiter: send_document when the file
   id is truthy, else send_message; if that raises, exactly one plain error
   message follows and nothing is retried; if that raises too, it escapes.
   */
  function Deliver(adminId: int, fileId: Option<string>, notice: string, t: Transport): (d: Delivery)
    ensures |d.sent| == (if t.primaryOk then 1 else 2)
    ensures AllTo(d.sent, adminId)
    ensures d.sent[0].SendDocument? <==> Truthy(fileId)
    ensures d.sent[0].SendDocument? ==> d.sent[0] == SendDocument(adminId, fileId.value, notice, true)
    ensures d.sent[0].SendMessage? ==> d.sent[0] == SendMessage(adminId, notice, true)
    ensures !t.primaryOk ==> d.sent[1] == SendMessage(adminId, FailureNotice, false)
    ensures d.escaped <==> !t.primaryOk && !t.fallbackOk
  {
    var first :=
      if Truthy(fileId) then SendDocument(adminId, fileId.value, notice, true)
      else SendMessage(adminId, notice, true);
    if t.primaryOk then Delivery([first], false)
    else Delivery([first, SendMessage(adminId, FailureNotice, false)], !t.fallbackOk)
  }

  /** The sender of a message: `update.message.from_user`. */
  datatype User = User(id: int, username: Option<string>)

  /** The confirmation the candidate receives, with the main menu. */
  function Confirmation(cfg: Config): Effect {
    ReplyText(Thanks, MainMenu(cfg), true)
  }

  /** The application get_resume builds from the stored fields and the message. */
  function ApplicationOf(name: string, contact: string, m: Input, user: User): Application {
    Application(name, contact, Show(Classify(m).fileName), user.id, user.username)
  }

  /**
   `get_resume`: read name and contact from user_data (a missing key raises
   before anything is sent), classify the message, notify the recruiter, then
   confirm to the candidate with the main menu and end the conversation. An
   exception from the fallback send escapes: no confirmation, no END.
   */
  function GetResume(data: UserData, m: Input, user: User, cfg: Config, t: Transport): (o: Outcome)
    ensures o.data == data
    ensures data.name.None? ==> o.result == Raised(MissingKey("name")) && o.effects == []
    ensures data.name.Some? && data.contact.None? ==> o.result == Raised(MissingKey("contact")) && o.effects == []
    ensures o.result.Next? ==> o.result.state == End && |o.effects| > 0 && o.effects[|o.effects| - 1] == Confirmation(cfg)
    ensures data.name.Some? && data.contact.Some? ==>
      (o.result == Next(End) <==> t.primaryOk || t.fallbackOk)
    ensures o.result.Raised? ==> forall i :: 0 <= i < |o.effects| ==> !o.effects[i].ToUser()
    ensures data.name.Some? && data.contact.Some? ==>
      o.effects == Deliver(cfg.adminId, Classify(m).fileId, AdminNotice(ApplicationOf(data.name.value, data.contact.value, m, user)), t).sent
        + (if o.result.Next? then [Confirmation(cfg)] else [])
  {
    match (data.name, data.contact)
    case (None, _) => Outcome(data, [], Raised(MissingKey("name")))
    case (Some(_), None) => Outcome(data, [], Raised(MissingKey("contact")))
    case (Some(name), Some(contact)) =>
      var notice := AdminNotice(ApplicationOf(name, contact, m, user));
      var d := Deliver(cfg.adminId, Classify(m).fileId, notice, t);
      if d.escaped then Outcome(data, d.sent, Raised(DeliveryFailed))
      else Outcome(data, d.sent + [Confirmation(cfg)], Next(End))
  }

  /**
   With name and contact stored, the first call goes to the recruiter chat and
   carries the notice with the name and contact: the file itself, with the
   notice as caption, exactly when the message is a document with a non-empty
   file id, and otherwise the notice as a message.
   */
  lemma DocumentPath(name: string, contact: string, m: Input, user: User, cfg: Config, t: Transport)
    ensures var o := GetResume(UserData(Some(name), Some(contact)), m, user, cfg, t);
      var notice := AdminNotice(ApplicationOf(name, contact, m, user));
      && |o.effects| >= 1
      && o.effects[0] == (if m.Document? && m.fileId != "" then SendDocument(cfg.adminId, m.fileId, notice, true)
                          else SendMessage(cfg.adminId, notice, true))
      && !o.effects[0].ToUser() && o.effects[0].chatId == cfg.adminId
  {
  }

  /**
   A document with a non-empty file id, delivered on the first attempt: the
   file goes to the recruiter with the notice as caption, then the candidate
   gets the confirmation and the conversation ends.
   */
  lemma DocumentDelivered(name: string, contact: string, id: string, fileName: Option<string>,
                          user: User, cfg: Config, fallbackOk: bool)
    requires id != ""
    ensures GetResume(UserData(Some(name), Some(contact)), Document(id, fileName), user, cfg, Transport(true, fallbackOk))
      == Outcome(UserData(Some(name), Some(contact)),
           [SendDocument(cfg.adminId, id, AdminNotice(Application(name, contact, Show(fileName), user.id, user.username)), true),
            Confirmation(cfg)],
           Next(End))
  {
    assert Truthy(Classify(Document(id, fileName)).fileId);
  }

  /**
   The recruiter can read the candidate's name, contact, file label, user id
   and username back from the notice sent first, to the recruiter chat, and
   the id as a number.
   */
  lemma NoticeReadsBack(name: string, contact: string, m: Input, user: User, cfg: Config, t: Transport)
    requires NoNewline(name) && NoNewline(contact)
    requires m.Document? && m.fileName.Some? ==> NoNewline(m.fileName.value)
    requires user.username.Some? ==> NoNewline(user.username.value)
    ensures var o := GetResume(UserData(Some(name), Some(contact)), m, user, cfg, t);
      |o.effects| > 0 && !o.effects[0].ToUser() && o.effects[0].chatId == cfg.adminId
    ensures var o := GetResume(UserData(Some(name), Some(contact)), m, user, cfg, t);
      var e := o.effects[0];
      ReadNotice(if e.SendDocument? then e.caption else e.text) ==
        Some(Fields(name, contact, Show(Classify(m).fileName), IntToString(user.id), UsernameShown(user.username)))
    ensures var o := GetResume(UserData(Some(name), Some(contact)), m, user, cfg, t);
      var e := o.effects[0];
      var f := ReadNotice(if e.SendDocument? then e.caption else e.text);
      f.Some? && ParseInt(f.value.userId) == Some(user.id)
  {
    var a := ApplicationOf(name, contact, m, user);
    var e := GetResume(UserData(Some(name), Some(contact)), m, user, cfg, t).effects[0];
    assert (if e.SendDocument? then e.caption else e.text) == AdminNotice(a) by {
      DocumentPath(name, contact, m, user, cfg, t);
    }
    FileLabelSingleLine(m);
    ReadBack(a);
  }

  /** The file label in the notice is one line when the document's name is. */
  lemma FileLabelSingleLine(m: Input)
    requires m.Document? && m.fileName.Some? ==> NoNewline(m.fileName.value)
    ensures NoNewline(Show(Classify(m).fileName))
  {
    if !m.Document? {
      assert forall i :: 0 <= i < |TextInsteadLabel| ==> TextInsteadLabel[i] != '\n';
      assert forall i :: 0 <= i < |NoFileLabel| ==> NoFileLabel[i] != '\n';
    } else if m.fileName.None? {
      assert forall i :: 0 <= i < |"None"| ==> "None"[i] != '\n';
    }
  }
}

=== FILE: keyboards.dfy ===
/**
 The inline keyboards the bot attaches to its messages. Every keyboard in the
 bot is a column: one button per row.
 */
module Keyboards {
  import opened Wrappers
  import opened Settings

  /** A button either sends callback data back to the bot or opens a URL. */
  datatype Button = Callback(caption: string, data: string) | Link(caption: string, url: string)

  type Row = seq<Button>
  type Keyboard = seq<Row>

  const ManagerLabel := "💬 Связаться с менеджером"
  const VacancyButton := Callback("📌 О вакансии", "vacancy")
  const FaqButton := Callback("❓ Частые вопросы", "faq")
  const ApplyButton := Callback("📤 Оставить отклик", "apply")
  const BackToMenuButton := Callback("🔙 В главное меню", "start")
  const BackToFaqButton := Callback("🔙 Назад к FAQ", "faq")

  /** The five FAQ topic buttons, in the order the FAQ list shows them. */
  const TopicButtons: seq<Button> := [
    Callback("💰 Зарплата", "faq_salary"),
    Callback("📅 График", "faq_schedule"),
    Callback("📍 Место", "faq_location"),
    Callback("✅ Требования", "faq_requirements"),
    Callback("🎁 Льготы", "faq_benefits")
  ]

  /** The callback data of the topic buttons, in list order. */
  function TopicData(): seq<string> {
    seq(|TopicButtons|, i requires 0 <= i < |TopicButtons| => TopicButtons[i].data)
  }

  /** The callback data of a keyboard's callback buttons, in reading order. */
  function Actions(kb: Keyboard): seq<string>
    decreases |kb|
  {
    if |kb| == 0 then [] else RowActions(kb[0]) + Actions(kb[1..])
  }

  function RowActions(row: Row): seq<string>
    decreases |row|
  {
    if |row| == 0 then []
    else (if row[0].Callback? then [row[0].data] else []) + RowActions(row[1..])
  }

  /** The URLs of a keyboard's link buttons, in reading order. */
  function Links(kb: Keyboard): seq<string>
    decreases |kb|
  {
    if |kb| == 0 then [] else RowLinks(kb[0]) + Links(kb[1..])
  }

  function RowLinks(row: Row): seq<string>
    decreases |row|
  {
    if |row| == 0 then []
    else (if row[0].Link? then [row[0].url] else []) + RowLinks(row[1..])
  }

  lemma {:induction false} ActionsAppend(a: Keyboard, b: Keyboard)
    ensures Actions(a + b) == Actions(a) + Actions(b)
    ensures Links(a + b) == Links(a) + Links(b)
    decreases |a|
  {
    if |a| == 0 {
      assert a + b == b;
    } else {
      assert (a + b)[0] == a[0];
      assert (a + b)[1..] == a[1..] + b;
      ActionsAppend(a[1..], b);
    }
  }

  /** A one-button row contributes its button's data or URL. */
  lemma SingleRow(b: Button)
    ensures Actions([[b]]) == (if b.Callback? then [b.data] else [])
    ensures Links([[b]]) == (if b.Link? then [b.url] else [])
  {
    assert [b][1..] == [];
    assert [[b]][1..] == [];
    assert RowActions([b]) == (if b.Callback? then [b.data] else []) + RowActions([]);
    assert RowLinks([b]) == (if b.Link? then [b.url] else []) + RowLinks([]);
    assert Actions([[b]]) == RowActions([b]) + Actions([]);
    assert Links([[b]]) == RowLinks([b]) + Links([]);
  }

  /** Reading a column of buttons row by row. */
  lemma {:induction false} ColumnActions(buttons: seq<Button>)
    ensures Actions(Column(buttons)) == ButtonActions(buttons)
    ensures Links(Column(buttons)) == ButtonLinks(buttons)
    decreases |buttons|
  {
    if |buttons| > 0 {
      var c := Column(buttons);
      assert c == [[buttons[0]]] + Column(buttons[1..]);
      ActionsAppend([[buttons[0]]], Column(buttons[1..]));
      SingleRow(buttons[0]);
      ColumnActions(buttons[1..]);
    } else {
      assert Column(buttons) == [];
    }
  }

  function ButtonActions(buttons: seq<Button>): seq<string>
    decreases |buttons|
  {
    if |buttons| == 0 then []
    else (if buttons[0].Callback? then [buttons[0].data] else []) + ButtonActions(buttons[1..])
  }

  function ButtonLinks(buttons: seq<Button>): seq<string>
    decreases |buttons|
  {
    if |buttons| == 0 then []
    else (if buttons[0].Link? then [buttons[0].url] else []) + ButtonLinks(buttons[1..])
  }

  /** A list of callback buttons yields exactly their data, in order, and no links. */
  lemma {:induction false} AllCallbacks(buttons: seq<Button>)
    requires forall i :: 0 <= i < |buttons| ==> buttons[i].Callback?
    ensures ButtonActions(buttons) == seq(|buttons|, i requires 0 <= i < |buttons| => buttons[i].data)
    ensures ButtonLinks(buttons) == []
    decreases |buttons|
  {
    if |buttons| > 0 {
      AllCallbacks(buttons[1..]);
    }
  }

  predicate OneButtonPerRow(kb: Keyboard) {
    forall i :: 0 <= i < |kb| ==> |kb[i]| == 1
  }

  /** The manager link the configuration asks for: one URL, or none. */
  function ManagerLinks(cfg: Config): seq<string> {
    if HasManager(cfg) then [cfg.managerChatId.value] else []
  }

  /** `get_manager_button`: a single link row when a manager chat is configured, else nothing. */
  function ManagerRows(cfg: Config): (r: Keyboard)
    ensures |r| == |ManagerLinks(cfg)|
    ensures Actions(r) == []
    ensures Links(r) == ManagerLinks(cfg)
    ensures OneButtonPerRow(r)
  {
    if HasManager(cfg) then
      var b := Link(ManagerLabel, cfg.managerChatId.value);
      SingleRow(b);
      [[b]]
    else []
  }

  /** Adds the optional manager row after a fixed column of callback buttons. */
  function WithManager(fixed: Keyboard, cfg: Config): (r: Keyboard)
    ensures |r| == |fixed| + |ManagerLinks(cfg)|
    ensures r[..|fixed|] == fixed
    ensures Actions(r) == Actions(fixed)
    ensures Links(r) == Links(fixed) + ManagerLinks(cfg)
    ensures HasManager(cfg) ==> r[|fixed|] == [Link(ManagerLabel, cfg.managerChatId.value)]
    ensures OneButtonPerRow(fixed) ==> OneButtonPerRow(r)
  {
    var m := ManagerRows(cfg);
    ActionsAppend(fixed, m);
    assert (fixed + m)[..|fixed|] == fixed;
    fixed + m
  }

  /** `get_main_menu`. */
  function MainMenu(cfg: Config): (r: Keyboard)
    ensures Actions(r) == ["vacancy", "faq", "apply"]
    ensures Links(r) == ManagerLinks(cfg)
    ensures |r| == 3 + |ManagerLinks(cfg)|
    ensures r[..3] == [[VacancyButton], [FaqButton], [ApplyButton]]
    ensures OneButtonPerRow(r)
  {
    var fixed := Column([VacancyButton, FaqButton, ApplyButton]);
    ColumnActions([VacancyButton, FaqButton, ApplyButton]);
    AllCallbacks([VacancyButton, FaqButton, ApplyButton]);
    assert fixed == [[VacancyButton], [FaqButton], [ApplyButton]];
    WithManager(fixed, cfg)
  }

  /** `get_back_to_start_button`. */
  function BackToStart(cfg: Config): (r: Keyboard)
    ensures Actions(r) == ["start"]
    ensures Links(r) == ManagerLinks(cfg)
    ensures |r| == 1 + |ManagerLinks(cfg)|
    ensures r[0] == [BackToMenuButton]
    ensures OneButtonPerRow(r)
  {
    SingleRow(BackToMenuButton);
    WithManager([[BackToMenuButton]], cfg)
  }

  /** The keyboard under an FAQ answer: back to the FAQ list, then the optional manager row. */
  function FaqAnswerKeyboard(cfg: Config): (r: Keyboard)
    ensures Actions(r) == ["faq"]
    ensures Links(r) == ManagerLinks(cfg)
    ensures |r| == 1 + |ManagerLinks(cfg)|
    ensures r[0] == [BackToFaqButton]
    ensures OneButtonPerRow(r)
  {
    SingleRow(BackToFaqButton);
    WithManager([[BackToFaqButton]], cfg)
  }

  function Column(buttons: seq<Button>): (r: Keyboard)
    ensures |r| == |buttons|
    ensures forall i :: 0 <= i < |r| ==> r[i] == [buttons[i]]
  {
    seq(|buttons|, i requires 0 <= i < |buttons| => [buttons[i]])
  }

  /** The topic buttons as a column. */
  lemma TopicColumn()
    ensures Actions(Column(TopicButtons)) == TopicData()
    ensures Links(Column(TopicButtons)) == []
    ensures |Column(TopicButtons)| == 5
  {
    ColumnActions(TopicButtons);
    AllCallbacks(TopicButtons);
  }

  /** The rows of a fixed column, the optional manager row, then one closing button. */
  lemma ClosedColumnRows(fixed: Keyboard, cfg: Config, b: Button)
    ensures var r := WithManager(fixed, cfg) + [[b]];
      && |r| == |fixed| + |ManagerLinks(cfg)| + 1
      && r[..|fixed|] == fixed
      && (HasManager(cfg) ==> r[|fixed|] == [Link(ManagerLabel, cfg.managerChatId.value)])
      && r[|r| - 1] == [b]
  {
    var head := WithManager(fixed, cfg);
    var r := head + [[b]];
    assert r[..|fixed|] == head[..|fixed|];
    assert HasManager(cfg) ==> r[|fixed|] == head[|fixed|];
  }

  /** What such a column offers: the fixed callbacks and the closing one, and the manager link. */
  lemma ClosedColumnOffers(fixed: Keyboard, cfg: Config, b: Button)
    requires b.Callback?
    ensures var r := WithManager(fixed, cfg) + [[b]];
      && Actions(r) == Actions(fixed) + [b.data]
      && Links(r) == Links(fixed) + ManagerLinks(cfg)
      && (OneButtonPerRow(fixed) ==> OneButtonPerRow(r))
  {
    var head := WithManager(fixed, cfg);
    SingleRow(b);
    ActionsAppend(head, [[b]]);
  }

  /** The FAQ list: the five topics, then the optional manager row, then back-to-menu last. */
  function FaqList(cfg: Config): (r: Keyboard)
    ensures Actions(r) == TopicData() + ["start"]
    ensures Links(r) == ManagerLinks(cfg)
    ensures |r| == 6 + |ManagerLinks(cfg)|
    ensures r[..5] == Column(TopicButtons)
    ensures HasManager(cfg) ==> r[5] == [Link(ManagerLabel, cfg.managerChatId.value)]
    ensures r[|r| - 1] == [BackToMenuButton]
    ensures OneButtonPerRow(r)
  {
    var topics := Column(TopicButtons);
    TopicColumn();
    assert OneButtonPerRow(topics);
    ClosedColumnRows(topics, cfg, BackToMenuButton);
    ClosedColumnOffers(topics, cfg, BackToMenuButton);
    WithManager(topics, cfg) + [[BackToMenuButton]]
  }
}

=== FILE: notice.dfy ===
/**
 The notice the recruiter receives for a completed application, and a reader
 that recovers its fields: the notice is built so that every field can be read
 back from it.
 */
module Notice {
  import opened Wrappers
  import opened Strings

  /** What get_resume knows when it writes the notice. */
  datatype Application = Application(
    name: string,
    contact: string,
    file: string,          // the file name, or one of the two fallback labels
    userId: int,
    username: Option<string>)

  /** The fields as they appear in the notice text. */
  datatype Fields = Fields(name: string, contact: string, file: string, userId: string, username: string)

  const Header := "📬 *Новый отклик на вакансию*"
  const NameTag := "👤 *Имя:* "
  const ContactTag := "📞 *Контакт:* "
  const FileTag := "📎 *Файл:* "
  const IdTag := "🆔 *ID пользователя:* "
  const UsernameTag := "🌐 *Username:* @"

  /** `user.username or 'нет'`: the username when it is set and non-empty. */
  function UsernameShown(u: Option<string>): (r: string)
    ensures |r| > 0
    ensures Truthy(u) ==> r == u.value
    ensures !Truthy(u) ==> r == "нет"
  {
    if Truthy(u) then u.value else "нет"
  }

  function NoticeLines(a: Application): seq<string> {
    [Header, "",
     NameTag + a.name,
     ContactTag + a.contact,
     FileTag + a.file,
     IdTag + IntToString(a.userId),
     UsernameTag + UsernameShown(a.username)]
  }

  /** The Markdown text sent to the recruiter. */
  function AdminNotice(a: Application): string {
    Join(NoticeLines(a))
  }

  /** Strips a known tag from the front of a line. */
  function After(line: string, tag: string): Option<string> {
    if tag <= line then Some(line[|tag|..]) else None
  }

  /** Reads the fields back out of a notice, or None when the text has another shape. */
  function ReadNotice(text: string): Option<Fields> {
    var ls := Split(text);
    if |ls| != 7 || ls[0] != Header || ls[1] != "" then None
    else
      match (After(ls[2], NameTag), After(ls[3], ContactTag), After(ls[4], FileTag),
             After(ls[5], IdTag), After(ls[6], UsernameTag))
      case (Some(n), Some(c), Some(f), Some(i), Some(u)) => Some(Fields(n, c, f, i, u))
      case _ => None
  }

  /** No field the candidate or Telegram supplied contains a line break. */
  predicate SingleLine(a: Application) {
    && NoNewline(a.name) && NoNewline(a.contact) && NoNewline(a.file)
    && (a.username.Some? ==> NoNewline(a.username.value))
  }

  /** The notice splits back into its seven lines when the fields are single-line. */
  lemma NoticeSplits(a: Application)
    requires SingleLine(a)
    ensures Split(AdminNotice(a)) == NoticeLines(a)
  {
    var ls := NoticeLines(a);
    TagsSingleLine();
    NoNewlineJoin(NameTag, a.name);
    NoNewlineJoin(ContactTag, a.contact);
    NoNewlineJoin(FileTag, a.file);
    NoNewlineJoin(IdTag, IntToString(a.userId));
    NoNewlineJoin(UsernameTag, UsernameShown(a.username));
    SplitJoin(ls);
  }

  /** The header and the five tags are one line each. */
  lemma TagsSingleLine()
    ensures NoNewline(Header) && NoNewline(NameTag) && NoNewline(ContactTag)
    ensures NoNewline(FileTag) && NoNewline(IdTag) && NoNewline(UsernameTag)
  {
    assert forall i :: 0 <= i < |Header| ==> Header[i] != '\n';
    assert forall i :: 0 <= i < |NameTag| ==> NameTag[i] != '\n';
    assert forall i :: 0 <= i < |ContactTag| ==> ContactTag[i] != '\n';
    assert forall i :: 0 <= i < |FileTag| ==> FileTag[i] != '\n';
    assert forall i :: 0 <= i < |IdTag| ==> IdTag[i] != '\n';
    assert forall i :: 0 <= i < |UsernameTag| ==> UsernameTag[i] != '\n';
  }

  /** A tag put in front of a value is stripped off again. */
  lemma AfterTag(tag: string, v: string)
    ensures After(tag + v, tag) == Some(v)
  {
    assert tag <= tag + v;
    assert (tag + v)[|tag|..] == v;
  }

  /**
   Reading the notice gives back the name, contact, file label, user id and
   username (or 'нет') exactly, whenever the candidate's fields fit on one line;
   the id line parses back to the numeric id.
   */
  lemma ReadBack(a: Application)
    requires SingleLine(a)
    ensures ReadNotice(AdminNotice(a)) ==
      Some(Fields(a.name, a.contact, a.file, IntToString(a.userId), UsernameShown(a.username)))
    ensures ParseInt(ReadNotice(AdminNotice(a)).value.userId) == Some(a.userId)
  {
    NoticeSplits(a);
    AfterTag(NameTag, a.name);
    AfterTag(ContactTag, a.contact);
    AfterTag(FileTag, a.file);
    AfterTag(IdTag, IntToString(a.userId));
    AfterTag(UsernameTag, UsernameShown(a.username));
  }
}

=== FILE: routing.dfy ===
/**
 Which handler a button press reaches. The callback handlers are registered in
 one group and the first one whose pattern matches takes the update; the
 conversation's entry point (pattern "apply") is registered last. Every
 pattern in the bot is a literal, at most anchored with "^", applied with
 `re.match`, so it matches exactly the data that starts with the literal.

 A route to the conversation's entry point only says that the conversation
 is consulted: the apply button starts an application only when none is in
 progress, which `Conversation.Dispatch` states.
 */
module Routing {
  import opened Wrappers
  import opened Strings
  import opened Keyboards

  /**
   The callback handlers of bot.py: show_vacancy, show_faq, handle_faq,
   back_to_start, and the conversation's entry point start_apply.
   */
  datatype Handler = VacancyHandler | FaqListHandler | FaqTopicHandler | BackToStartHandler | ApplyEntry

  /** A registered callback pattern, reduced to the literal that `re.match` requires at the front. */
  datatype Pattern = Prefix(literal: string)

  predicate Matches(p: Pattern, data: string) {
    StartsWith(data, p.literal)
  }

  datatype Route = Route(pattern: Pattern, handler: Handler)

  /** The handler of the first route whose pattern matches, or None when none does. */
  function FirstMatch(table: seq<Route>, data: string): (r: Option<Handler>)
    ensures r.None? <==> forall i :: 0 <= i < |table| ==> !Matches(table[i].pattern, data)
    ensures r.Some? ==>
      (exists i :: 0 <= i < |table| && Matches(table[i].pattern, data) && table[i].handler == r.value
        && forall j :: 0 <= j < i ==> !Matches(table[j].pattern, data))
    decreases |table|
  {
    if |table| == 0 then None
    else if Matches(table[0].pattern, data) then Some(table[0].handler)
    else
      var r := FirstMatch(table[1..], data);
      assert forall i :: 1 <= i < |table| ==> table[i] == table[1..][i - 1];
      r
  }

  /** The callback handlers in the order `main` registers them, then the conversation's entry. */
  const AsRegistered: seq<Route> := [
    Route(Prefix("vacancy"), VacancyHandler),
    Route(Prefix("faq"), FaqListHandler),
    Route(Prefix("faq_"), FaqTopicHandler),
    Route(Prefix("start"), BackToStartHandler),
    Route(Prefix("apply"), ApplyEntry)
  ]

  /** The same routes with the topic handler ahead of the FAQ list. */
  const Corrected: seq<Route> := [
    Route(Prefix("vacancy"), VacancyHandler),
    Route(Prefix("faq_"), FaqTopicHandler),
    Route(Prefix("faq"), FaqListHandler),
    Route(Prefix("start"), BackToStartHandler),
    Route(Prefix("apply"), ApplyEntry)
  ]

  /** Data whose first character differs from a literal's does not start with it. */
  lemma FirstCharDiffers(data: string, literal: string)
    requires |data| > 0 && |literal| > 0 && data[0] != literal[0]
    ensures !StartsWith(data, literal)
  {
  }

  /** Data starting with "faq_" also starts with "faq". */
  lemma TopicDataStartsWithFaq(data: string)
    requires StartsWith(data, "faq_")
    ensures StartsWith(data, "faq")
  {
    assert data[..3] == "faq_"[..3];
  }

  /** As registered, handle_faq is never reached: "faq" takes every "faq_..." callback first. */
  lemma HandleFaqUnreachable(data: string)
    ensures FirstMatch(AsRegistered, data) != Some(FaqTopicHandler)
  {
    if StartsWith(data, "faq_") {
      TopicDataStartsWithFaq(data);
      assert Matches(AsRegistered[1].pattern, data);
    }
  }

  /** So, as registered, a topic button shows the FAQ list again instead of the answer. */
  lemma TopicButtonShowsList(i: nat)
    requires i < |TopicButtons|
    ensures FirstMatch(AsRegistered, TopicButtons[i].data) == Some(FaqListHandler)
  {
    var data := TopicButtons[i].data;
    TopicDataStartsWithFaq(data);
    FirstCharDiffers(data, "vacancy");
  }

  /** In the corrected order, handle_faq receives exactly the data starting with "faq_". */
  lemma CorrectedReachesTopics(data: string)
    ensures FirstMatch(Corrected, data) == Some(FaqTopicHandler) <==> StartsWith(data, "faq_")
  {
    if StartsWith(data, "faq_") {
      assert data[0] == 'f';
      FirstCharDiffers(data, "vacancy");
    }
  }

  /** The reordering changes nothing for any other data. */
  lemma CorrectedAgreesElsewhere(data: string)
    requires !StartsWith(data, "faq_")
    ensures FirstMatch(Corrected, data) == FirstMatch(AsRegistered, data)
  {
  }

  /** In the corrected order the menu buttons reach the handlers they are meant for. */
  lemma CorrectedRoutesMenuButtons()
    ensures FirstMatch(Corrected, VacancyButton.data) == Some(VacancyHandler)
    ensures FirstMatch(Corrected, FaqButton.data) == Some(FaqListHandler)
    ensures FirstMatch(Corrected, BackToFaqButton.data) == Some(FaqListHandler)
    ensures FirstMatch(Corrected, BackToMenuButton.data) == Some(BackToStartHandler)
    ensures FirstMatch(Corrected, ApplyButton.data) == Some(ApplyEntry)
  {
    FirstCharDiffers("faq", "vacancy");
    FirstCharDiffers("start", "vacancy");
    FirstCharDiffers("start", "faq_");
    FirstCharDiffers("start", "faq");
    FirstCharDiffers("apply", "vacancy");
    FirstCharDiffers("apply", "faq_");
    FirstCharDiffers("apply", "faq");
    FirstCharDiffers("apply", "start");
    assert !StartsWith("faq", "faq_");
  }

  /** ... and every topic button reaches handle_faq. */
  lemma CorrectedRoutesTopicButtons()
    ensures forall i :: 0 <= i < |TopicButtons| ==> FirstMatch(Corrected, TopicButtons[i].data) == Some(FaqTopicHandler)
  {
    forall i | 0 <= i < |TopicButtons|
      ensures FirstMatch(Corrected, TopicButtons[i].data) == Some(FaqTopicHandler)
    {
      CorrectedReachesTopics(TopicButtons[i].data);
    }
  }
}

=== FILE: settings.dfy ===
/** The bot's configuration as loaded once at startup (bot.py reads it from the environment). */
module Settings {
  import opened Wrappers
  import opened Strings

  /**
   `adminId` is ADMIN_ID, the recruiter chat that receives applications;
   `managerChatId` is MANAGER_CHAT_ID, an optional link to a manager chat.
   */
  datatype Config = Config(adminId: int, managerChatId: Option<string>)

  /** The manager button is offered only when MANAGER_CHAT_ID is set and non-empty. */
  predicate HasManager(cfg: Config) {
    Truthy(cfg.managerChatId)
  }
}

=== FILE: strings.dfy ===
/**
 Python string behaviour the bot relies on: truthiness, f-string rendering of
 optional values, `str.startswith`, `str.replace`, `"\n".join` and `str(int)`.
 */
module Strings {
  import opened Wrappers

  /** Python truthiness of an optional string: present and non-empty. */
  predicate Truthy(o: Option<string>) {
    o.Some? && |o.value| > 0
  }

  /** How an f-string renders an optional string: the text itself, or "None". */
  function Show(o: Option<string>): string {
    match o
    case Some(s) => s
    case None => "None"
  }

  /** `s.startswith(p)`. */
  predicate StartsWith(s: string, p: string) {
    p <= s
  }

  /** `pat in s`: `pat` occurs somewhere in `s`. */
  predicate Occurs(pat: string, s: string)
    decreases |s|
  {
    pat <= s || (|s| > 0 && Occurs(pat, s[1..]))
  }

  /** Every character of a pattern that occurs in `s` is a character of `s`. */
  lemma {:induction false} OccursChars(pat: string, s: string)
    requires Occurs(pat, s)
    ensures forall c :: c in pat ==> c in s
    decreases |s|
  {
    if pat <= s {
      forall c | c in pat
        ensures c in s
      {
        var i :| 0 <= i < |pat| && pat[i] == c;
        assert s[i] == c;
      }
    } else {
      OccursChars(pat, s[1..]);
      forall c | c in pat
        ensures c in s
      {
        assert c in s[1..];
      }
    }
  }

  /**
   `s.replace(pat, rep)` for a non-empty pattern: scanning left to right, every
   non-overlapping occurrence of `pat` is replaced by `rep`.
   */
  function ReplaceAll(s: string, pat: string, rep: string): (r: string)
    requires |pat| > 0
    ensures !Occurs(pat, s) ==> r == s
    ensures |rep| <= |pat| ==> |r| <= |s|
    ensures |rep| < |pat| && Occurs(pat, s) ==> |r| < |s|
    decreases |s|
  {
    if pat <= s then rep + ReplaceAll(s[|pat|..], pat, rep)
    else if |s| == 0 then s
    else [s[0]] + ReplaceAll(s[1..], pat, rep)
  }

  /** No occurrence of `pat` starts at any of the first `n` positions of `s`. */
  predicate ClearBefore(s: string, pat: string, n: nat) {
    forall k :: 0 <= k < n && k <= |s| ==> !(pat <= s[k..])
  }

  /** Dropping the first character of a clear stretch leaves a shorter clear stretch. */
  lemma ClearTail(s: string, pat: string, n: nat)
    requires 0 < n <= |s| && ClearBefore(s, pat, n)
    ensures !(pat <= s) && ClearBefore(s[1..], pat, n - 1)
  {
    assert s[0..] == s;
    forall k | 0 <= k < n - 1 && k <= |s[1..]|
      ensures !(pat <= s[1..][k..])
    {
      assert s[1..][k..] == s[k + 1..];
    }
  }

  /**
   When no occurrence of the pattern starts inside `a`, the first one is the
   `pat` right after `a`: it is replaced and the scan continues after it.
   */
  lemma {:induction false} ReplaceAfterClearPrefix(a: string, pat: string, b: string, rep: string)
    requires |pat| > 0
    requires ClearBefore(a + pat + b, pat, |a|)
    ensures ReplaceAll(a + pat + b, pat, rep) == a + rep + ReplaceAll(b, pat, rep)
    decreases |a|
  {
    var s := a + pat + b;
    if |a| == 0 {
      assert s == pat + b;
      ReplaceLeading(pat, b, rep);
    } else {
      ClearTail(s, pat, |a|);
      assert s[1..] == a[1..] + pat + b;
      ReplaceSkipping(s, pat, rep);
      ReplaceAfterClearPrefix(a[1..], pat, b, rep);
      assert s[0] == a[0];
      ConsThree(a, rep, ReplaceAll(b, pat, rep));
    }
  }

  /** Putting the head of `a` back in front of the rest of a three-part join. */
  lemma ConsThree(a: string, y: string, z: string)
    requires |a| > 0
    ensures [a[0]] + (a[1..] + y + z) == a + y + z
  {
    assert [a[0]] + a[1..] == a;
  }

  /** Without an occurrence at the front, the first character is kept. */
  lemma ReplaceSkipping(s: string, pat: string, rep: string)
    requires |pat| > 0 && |s| > 0 && !(pat <= s)
    ensures ReplaceAll(s, pat, rep) == [s[0]] + ReplaceAll(s[1..], pat, rep)
  {
  }

  /** A leading occurrence is replaced and the scan continues after it. */
  lemma ReplaceLeading(pat: string, s: string, rep: string)
    requires |pat| > 0
    ensures ReplaceAll(pat + s, pat, rep) == rep + ReplaceAll(s, pat, rep)
  {
    assert pat <= pat + s;
    assert (pat + s)[|pat|..] == s;
  }

  predicate NoNewline(s: string) {
    '\n' !in s
  }

  /** Two one-line strings joined are still one line. */
  lemma NoNewlineJoin(x: string, y: string)
    requires NoNewline(x) && NoNewline(y)
    ensures NoNewline(x + y)
  {
    forall c | c in x + y
      ensures c != '\n'
    {
      assert c in x || c in y;
    }
  }

  /** `"\n".join(lines)`. */
  function Join(lines: seq<string>): string
    decreases |lines|
  {
    if |lines| == 0 then ""
    else if |lines| == 1 then lines[0]
    else lines[0] + "\n" + Join(lines[1..])
  }

  /** `s.split("\n")`: the pieces between newlines; always at least one. */
  function Split(s: string): (r: seq<string>)
    ensures |r| > 0
    decreases |s|
  {
    if |s| == 0 then [""]
    else if s[0] == '\n' then [""] + Split(s[1..])
    else
      var rest := Split(s[1..]);
      [[s[0]] + rest[0]] + rest[1..]
  }

  /** A newline-free prefix glues onto the first piece of what follows. */
  lemma {:induction false} SplitGlue(line: string, t: string)
    requires NoNewline(line)
    ensures Split(line + t) == [line + Split(t)[0]] + Split(t)[1..]
    decreases |line|
  {
    if |line| > 0 {
      assert (line + t)[0] == line[0];
      assert (line + t)[1..] == line[1..] + t;
      SplitGlue(line[1..], t);
      assert [line[0]] + (line[1..] + Split(t)[0]) == line + Split(t)[0];
    } else {
      assert line + t == t;
      var r := Split(t);
      assert line + r[0] == r[0];
      assert [r[0]] + r[1..] == r;
    }
  }

  /** Splitting the join of newline-free lines gives the lines back. */
  lemma {:induction false} SplitJoin(lines: seq<string>)
    requires |lines| > 0
    requires forall i :: 0 <= i < |lines| ==> NoNewline(lines[i])
    ensures Split(Join(lines)) == lines
    decreases |lines|
  {
    if |lines| == 1 {
      SplitGlue(lines[0], "");
      assert lines[0] + "" == lines[0];
    } else {
      var t := Join(lines[1..]);
      SplitJoin(lines[1..]);
      assert lines[0] + "\n" + t == lines[0] + ("\n" + t);
      SplitGlue(lines[0], "\n" + t);
      assert ("\n" + t)[1..] == t;
      assert Split("\n" + t) == [""] + Split(t);
      assert lines[0] + "" == lines[0];
      assert [lines[0]] + lines[1..] == lines;
    }
  }

  function DigitChar(d: nat): (c: char)
    requires d < 10
    ensures '0' <= c <= '9'
  {
    ('0' as int + d) as char
  }

  function DigitValue(c: char): (d: nat)
    requires '0' <= c <= '9'
    ensures d < 10 && DigitChar(d) == c
  {
    c as int - '0' as int
  }

  predicate AllDigits(s: string) {
    forall c :: c in s ==> '0' <= c <= '9'
  }

  /** The number a string of decimal digits denotes, most significant first. */
  function ReadDigits(s: string): nat
    requires AllDigits(s)
    decreases |s|
  {
    if |s| == 0 then 0
    else
      var init := s[..|s| - 1];
      assert forall c :: c in init ==> c in s;
      assert s[|s| - 1] in s;
      ReadDigits(init) * 10 + DigitValue(s[|s| - 1])
  }

  /**
   Reads an integer written as `str(int)` writes it: an optional '-' followed
   by one or more decimal digits; None for any other text.
   */
  function ParseInt(s: string): Option<int> {
    if |s| > 0 && s[0] == '-' then
      if |s| > 1 && AllDigits(s[1..]) then Some(-(ReadDigits(s[1..]) as int)) else None
    else if |s| > 0 && AllDigits(s) then Some(ReadDigits(s))
    else None
  }

  /** The decimal digits of a natural number, most significant first. */
  function Digits(n: nat): (r: string)
    ensures |r| > 0
    ensures AllDigits(r)
    ensures r[0] == '0' ==> n == 0 && r == "0"
    decreases n
  {
    if n < 10 then [DigitChar(n)]
    else Digits(n / 10) + [DigitChar(n % 10)]
  }

  /** Reading the digits of a number gives the number back. */
  lemma {:induction false} DigitsRoundTrip(n: nat)
    ensures ReadDigits(Digits(n)) == n
    decreases n
  {
    var s := Digits(n);
    if n < 10 {
      assert s[..|s| - 1] == [];
    } else {
      assert s[..|s| - 1] == Digits(n / 10);
      DigitsRoundTrip(n / 10);
    }
  }

  /** `str(i)` for a Python int; `ParseInt` reads it back, so distinct ids render differently. */
  function IntToString(i: int): (r: string)
    ensures |r| > 0
    ensures NoNewline(r)
    ensures (r[0] == '-') <==> i < 0
    ensures ParseInt(r) == Some(i)
    ensures r[0] != '-' && |r| > 1 ==> r[0] != '0'
    ensures i < 0 ==> r[1] != '0'
  {
    if i < 0 then
      var d := Digits(-i);
      DigitsRoundTrip(-i);
      assert ("-" + d)[1..] == d;
      "-" + d
    else
      var d := Digits(i);
      DigitsRoundTrip(i);
      assert d[0] in d;
      d
  }
}

=== FILE: wrappers.dfy ===
/** Python's `None`-or-value, and the dictionary lookup that produces it. */
module Wrappers {

  /** A value that may be absent, as a Python expression that may evaluate to None. */
  datatype Option<T> = None | Some(value: T)

  /** `d.get(k)`: the entry under `k`, or None when `d` has no such key. */
  function Get<K, V>(m: map<K, V>, k: K): (r: Option<V>)
    ensures r.Some? <==> k in m
    ensures r.Some? ==> r.value == m[k]
  {
    if k in m then Some(m[k]) else None
  }
}
